=== FILE: README.md ===
# Line checker for a small if/print language

The checker reads a source file line by line and labels each line "No Error",
"Lexical Error" or "Syntax Error". A line is labelled in three steps:

1. it is stripped of surrounding whitespace, and a blank line is "No Error";
2. otherwise it is split into tokens by `tokenize`;
3. the tokens are checked against the grammar by a recursive-descent
   `Parser` through `checkGrammar`.

A `ValueError` from the tokenizer gives the lexical label. A `SyntaxError`
from the parser gives the syntax label.

This project models that core in Dafny, in these modules:

- `Chars`: the character classes the scanner uses. These are `isalpha`,
  `isdigit`, `isalnum` and `isspace`, plus the `is_alphanumeric` helper, all
  restricted to ASCII.
- `Tokens`:
  - the five token kinds and the (kind, lexeme) token;
  - the keyword table `token_hierarchy`;
  - `KindOfLexeme`, a reference classification that tells a lexeme's kind
    from its shape alone. A token is `WellFormed` when its kind is the one
    its shape determines.
- `Lexer`:
  - `is_valid_identifier`;
  - the scanning loop of `tokenize`, as a function over the unread suffix
    of the line;
  - its two inner loops: `WordEnd` for words and `ScanNumber` for numbers,
    including the float flag and the glued-word error;
  - one pass of the loop (`ScanLexeme`).

  The exceptions become a `LexResult` value.
- `LexerProps`: what the scan guarantees.
  - It is a tokenization: the lexemes written one after another give back
    the line without its whitespace.
  - Rescanning a token's lexeme gives back that token.
  - A whitespace character splits a line into two independently scanned
    halves.
  - Writing well-formed tokens with single spaces between them scans back
    to the same tokens.
  - A blank line scans to nothing.
  - Every lexeme the scan rejects is a number glued to a word: digits and
    dots, then a letter or underscore, then word characters up to the
    first character that is not one. It occurs in the line.
  - Such a glued run is rejected at the start of the line. It is also
    rejected after whitespace, or after a symbol other than `.` and `_`, when
    the text before it scans without error.
  - A symbol character is a token on its own. A symbol other than `.` and
    `_` splits the line like whitespace does, and it adds its own token.
- `Parser`: `current_token`, `consume`, `parse_x`, `parse_cond`, `parse_A`,
  `parse_statement`, the loop of `parse`, and `checkGrammar`.
  - `CurrentToken` returns the token under the cursor, if there is one.
  - The parsing members take a cursor into the token list. Each returns the
    cursor after what it consumed, or the reason for the `SyntaxError` it
    raises.
  - `CheckGrammar` returns a verdict: accepted, or rejected with that
    reason.
- `Grammar`: the language the parser is meant to recognise, stated
  declaratively over spans of the token list.
- `ParserProps`: the parser measured against `Grammar`.
  - The condition parser accepts exactly the conditions that no operator
    follows.
  - Every accepted line is in the language.
  - A three-token line shows that the converse fails.
- `Driver`: `str.strip` and the per-line labelling, including the loop over
  all lines.
- `Examples`: concrete lines and their labels. Longer lines are written as
  token lists, and the line is their lexemes joined by single spaces.

Some consequences of the code that a reader might not expect:

- A `.` met inside a number is always absorbed into it (`compiler.py:71-85`),
  whether or not a digit follows. So `5.` is one INTEGER token, `5.`, and
  `1.2.3` is one FLOAT token.
- `x = 5` is rejected because `=` cannot start a statement
  (`InvalidStatementStart`, `compiler.py:177-180`). The loop of `parse` calls
  `parse_statement` on `=`, so the trailing-token error of
  `compiler.py:193-194` is never reached for this line.
- `parse` loops over zero or more statements. So a line holding only `;`
  is accepted, even though the grammar's docstring says `statement+`.
- The `Invalid identifier` error of the word branch (`compiler.py:62`) is
  never raised: a letter-led run of word characters always passes
  `is_valid_identifier` (`LexerProps.WordScanned`).
- After a digit-led lexeme swallows a word, the check at `compiler.py:80`
  always raises, because such a lexeme never passes `is_valid_identifier`.
  The model raises unconditionally. `Lexer.IsValidIdentifier` states why,
  and `LexerProps.GluedRunRaises` shows the outcome.

## Model

| member | source | states |
|---|---|---|
| `Lexer.IsValidIdentifier` | compiler.py:21-31 | an accepted identifier is non-empty and never starts with a digit |
| `LexerProps.IdentifierShape` | compiler.py:21-31 | for a letter-led non-keyword lexeme, `is_valid_identifier` accepts exactly the lexemes whose shape is that of an identifier |
| `LexerProps.WordIsIdentifier` | compiler.py:49-59 | a letter-led word gathered by the word loop always passes `is_valid_identifier` |
| `LexerProps.WordScanned` | compiler.py:49-62 | the word branch never raises: a letter-led text always yields a token |
| `Lexer.WordEnd` | compiler.py:52-54 | the word loop stops at the first non-word character (or the end), having passed only letters, digits and underscores |
| `Lexer.ScanNumber` | compiler.py:69-86 | the number loop passes only digits and dots. It stops at a character that is neither a word character nor a dot. On a letter or underscore it switches to consuming the whole word run |
| `Lexer.ScanNumberFloat` | compiler.py:71-75 | the float flag ends up set exactly when the scanned number contains a dot immediately followed by a digit |
| `Lexer.FractionStep` | compiler.py:71-75 | a dot-digit pair in a span starts at its first position or lies in the rest of the span |
| `Lexer.FractionPrefix` | compiler.py:71-75 | whether a span holds a dot followed by a digit does not depend on the text after the span |
| `Lexer.ScanLexeme` | compiler.py:42-94 | one pass of the scanning loop. It consumes at least one character. The token it yields has the kind its lexeme's shape determines. A word or number ends before a word character, and a number never ends before a dot. A symbol is one character. A rejected lexeme is a number glued to a word, taken through the end of that word |
| `Lexer.Tokenize` | compiler.py:34-96 | every token produced is well-formed (kind agrees with the lexeme's shape), and every lexeme it raises on is a number glued to a word |
| `Lexer.ErrLexemeInLine` | compiler.py:34-96 | the lexeme a failed scan raises on is a contiguous piece of the line |
| `LexerProps.RoundTrip` | compiler.py:34-96 | concatenating the lexemes of a successful scan gives back the line with all whitespace removed, and no lexeme contains whitespace |
| `LexerProps.SqueezeSplit` | compiler.py:43-46 | a whitespace-free prefix survives whitespace removal unchanged |
| `LexerProps.WellFormedSpaceFree` | compiler.py:42-94 | a well-formed lexeme never contains whitespace |
| `LexerProps.SqueezeEmpty` | compiler.py:43-46 | removing whitespace leaves nothing exactly for an all-whitespace text |
| `LexerProps.BlankIffNoTokens` | compiler.py:34-46 | a line scans to no tokens if and only if it is all whitespace |
| `LexerProps.AllSpaceScansEmpty` | compiler.py:43-46 | an all-whitespace line scans to the empty token list |
| `LexerProps.Retokenize` | compiler.py:42-94 | scanning the lexeme of any well-formed token on its own gives back exactly that one token |
| `LexerProps.WordEndAppend` | compiler.py:52-54 | the word loop stops at the same place when a non-word character follows the text |
| `LexerProps.ScanNumberAppend` | compiler.py:69-86 | the number loop gives the same result when the text is followed by a character that is neither a word character nor a dot |
| `LexerProps.ScanLexemeAppend` | compiler.py:42-94 | one lexeme is scanned the same whether or not a character that is neither a word character nor a dot follows it |
| `LexerProps.SpaceSplits` | compiler.py:34-96 | a whitespace character splits the line: the scan of the whole is the scan of the left part followed by that of the right, with the first error winning |
| `LexerProps.SymbolSplits` | compiler.py:34-96 | a symbol that is neither a word character nor a dot splits the line: the scan of the whole is the scan of the left part, then the symbol's token, then the scan of the right part, with the first error winning |
| `LexerProps.EmitJoin` | compiler.py:94 | prepending a token to a scan result commutes with joining two scan results |
| `LexerProps.GluedRunRaises` | compiler.py:76-81 | a digit-led run that reaches a letter or underscore makes the scan raise on the whole run, and that run is never a valid identifier |
| `LexerProps.GluedPrefixRejected` | compiler.py:64-81 | the converse of the error clauses of one scan pass: a line that starts with a glued run ending before a non-word character is rejected on exactly that run |
| `LexerProps.GluedRunEndUnique` | compiler.py:76-81 | at most one prefix of a line is a glued run ending before a non-word character, so the rejected lexeme is determined by the line |
| `LexerProps.SymbolPassesThrough` | compiler.py:88-94 | a character that is not whitespace, a letter or a digit is a one-character SYMBOL token whatever follows, and the scan continues right after it |
| `LexerProps.SymbolThenGluedRun` | compiler.py:76-94 | a glued run right after a symbol that starts the line still aborts the line, with the run as the rejected lexeme |
| `LexerProps.GluedRunAfter` | compiler.py:34-96 | a glued run after whitespace or after such a symbol aborts the line with that run as the lexeme, when the text before it scans without error |
| `LexerProps.UnlexRoundTrip` | compiler.py:34-96 | well-formed tokens written with single spaces between them scan back to the same token list |
| `Parser.StartersAreNonSymbols` | compiler.py:108 | the statement starters are exactly the four kinds other than SYMBOL |
| `Parser.CurrentToken` | compiler.py:110-111 | there is a current token exactly when the cursor is inside the token list, and it is the token at the cursor |
| `Parser.Consume` | compiler.py:113-122 | consume succeeds exactly when a token is present and matches the given kind and lexeme. It then advances by one. At end of input it fails with "unexpected end" |
| `Parser.SkipOptional` | compiler.py:147-150 | an optional `then`/`endif` is consumed exactly when the current token is that identifier |
| `Parser.ParseX` | compiler.py:124-132 | an operand succeeds exactly on a present non-symbol token other than `if`/`else`, consuming one token. At end of input it fails with "expected operand" |
| `Parser.CondTail` | compiler.py:137-141 | the operator loop only moves forward and stops at a token that is not an operator symbol |
| `Parser.ParseCond` | compiler.py:134-141 | a successful condition consumes at least one token |
| `Parser.ParseA` | compiler.py:143-164 | a successful if-construct body consumes at least one token |
| `Parser.ParseStatement` | compiler.py:166-180 | a statement consumes at least one token. At end of input it fails with "expected a statement". On a symbol or `else` it fails with "invalid start". On an `if` that is not a keyword it fails with "'if' must be a keyword" |
| `Parser.ParseStatements` | compiler.py:187-191 | the statement loop stops either at the end of the line or right after a `;` |
| `Parser.CheckGrammar` | compiler.py:182-202 | a line is accepted exactly when it is empty or the statement loop consumes all of it. Tokens left after the `;` are rejected as trailing |
| `ParserProps.CondExtend` | compiler.py:138-141 | a condition followed by an operator and an operand is a longer condition, as one pass of the operator loop reads it |
| `ParserProps.CondInside` | compiler.py:138-141 | inside a longer condition, a prefix condition is always followed by an operator and an operand |
| `ParserProps.CondTailSound` | compiler.py:137-141 | the operator loop extends a grammar condition to a longer grammar condition |
| `ParserProps.CondTailComplete` | compiler.py:137-141 | started inside a maximal grammar condition, the operator loop runs exactly to its end |
| `ParserProps.CondExact` | compiler.py:134-141 | `parse_cond` ends at `q` if and only if the span is a grammar condition that no operator follows |
| `ParserProps.StatementSound` | compiler.py:166-180 | every statement the parser accepts spans a grammar statement |
| `ParserProps.IfRestSound` | compiler.py:143-164 | every if-construct body the parser accepts spans a grammar `A` |
| `ParserProps.StatementsSound` | compiler.py:187-191 | the statement loop consumes a run of grammar statements, possibly followed by the `;` it stopped at |
| `ParserProps.LineSound` | compiler.py:182-202 | every line `checkGrammar` accepts is in the language `S` |
| `ParserProps.AtomsParse` | compiler.py:187-191 | a run of bare operands with no `;` among them is consumed to the end by the statement loop |
| `ParserProps.AtomsThenTerminator` | compiler.py:187-191 | bare operands followed by one `;` are consumed up to and including the `;` |
| `ParserProps.AtomLineAccepted` | compiler.py:182-202 | a partial converse of soundness: every line of bare operands, with or without a final `;`, is accepted |
| `ParserProps.GreedyThen` | compiler.py:147-152 | `if x then` is in the language but is rejected, because the optional `then` is consumed greedily and no statement follows |
| `Driver.TrimStart` | compiler.py:222 | left stripping drops exactly a whitespace prefix and leaves a text that does not start with whitespace |
| `Driver.TrimEnd` | compiler.py:222 | right stripping drops exactly a whitespace suffix and leaves a text that does not end with whitespace |
| `Driver.AllSpaceSplit` | compiler.py:222-223 | a text is all whitespace exactly when both parts of any split are |
| `Driver.TrimBoth` | compiler.py:222-223 | stripping both ends leaves nothing exactly for an all-whitespace line, and otherwise leaves a text with non-space ends |
| `Driver.SpaceInfix` | compiler.py:222 | dropping a whitespace prefix and then a whitespace suffix leaves an infix of the line with only whitespace around it |
| `Driver.Strip` | compiler.py:222-223 | the stripped line is an infix of the line with only whitespace before and after it. It is empty exactly when the line is all whitespace. Otherwise it starts and ends with a non-space |
| `Driver.TrimStartKeepsTokens` | compiler.py:222-227 | removing leading whitespace never changes the scan |
| `Driver.TrimEndKeepsTokens` | compiler.py:222-227 | removing trailing whitespace never changes the scan |
| `Driver.StripKeepsTokens` | compiler.py:222-227 | stripping the line never changes the scan |
| `Driver.Classify` | compiler.py:221-233 | the label is "Lexical Error" exactly when the scan of the raw line raises. It is "Syntax Error" exactly when the scan succeeds and the parser rejects. It is "No Error" exactly when both succeed. So stripping and the blank-line shortcut never change a label |
| `Driver.BlankLineNoError` | compiler.py:223-225 | a blank line is "No Error", in agreement with scanning it to no tokens, which the parser accepts |
| `Driver.ClassifyUnlex` | compiler.py:221-233 | a line written from well-formed tokens is never a lexical error, and is "No Error" exactly when the parser accepts those tokens |
| `Driver.TextDistinct` | compiler.py:224-233 | the three label texts are pairwise different, so each output line names exactly one label |
| `Driver.MapLines` | compiler.py:220-233 | the loop over the lines yields one entry per line, in order, each computed from its line alone |
| `Driver.ClassifyLines` | compiler.py:220-233 | one output line per input line, in order, each the text of that line's label |
| `Examples.NumberGluedToWord` | compiler.py:76-81 | `123abc` is rejected as one lexeme and labelled "Lexical Error" |
| `Examples.DotsInNumbers` | compiler.py:71-84 | `5.` scans to INTEGER `5.` and `1.2.3` to FLOAT `1.2.3` |
| `Examples.LeadingUnderscore` | compiler.py:49-94 | `_x` scans to SYMBOL `_` followed by IDENTIFIER `x` |
| `Examples.AssignmentParses` | compiler.py:177-180 | `x = 5` is rejected because `=` cannot start a statement |
| `Examples.AssignmentRejected` | compiler.py:226-233 | `x = 5` is labelled "Syntax Error" |
| `Examples.IfElseParses` | compiler.py:143-180 | `if x < 5 then print else print endif` is accepted |
| `Examples.IfThenElseAccepted` | compiler.py:226-229 | `if x < 5 then print else print endif` is labelled "No Error" |
| `Examples.IfInConditionParses` | compiler.py:127-129 | `if if x then print` is rejected: `if` cannot be an operand |
| `Examples.IfInCondition` | compiler.py:226-233 | `if if x then print` is labelled "Syntax Error" |
| `Examples.TerminatorParses` | compiler.py:187-194 | `x ;` is accepted and `; x` is rejected for its trailing token |
| `Examples.Terminator` | compiler.py:221-233 | `x ;` is labelled "No Error" and `; x` "Syntax Error" |

## Left out

- The command-line handling, reading the input file and writing the output
  file (`compiler.py:205-218` and `compiler.py:236-243`) are I/O. The model
  starts from the lines and ends with the texts appended to the output
  list.
- `str.splitlines` is not modelled: `Driver.ClassifyLines` takes the lines
  already split.
- Character classes are ASCII only. Python's `isalpha`, `isdigit` and
  `isspace` also accept non-ASCII letters, digits and spaces. In this model
  every non-ASCII character scans as a symbol.
- The exception messages are reduced to a `Reason` tag (syntax errors) or the
  offending lexeme (lexical errors), because the driver only inspects the
  exception class.
- After the glued-run check at `compiler.py:80`, the code that would run if
  it passed is unreachable. It is not modelled.
- Parser.CheckGrammar: it states that tokens left after the `;` are
  rejected as trailing. It does not state the converse, which would say
  which failure reason the parser reports for every other rejected line.
- ParserProps.LineSound: the parser is sound but not complete with respect
  to the grammar. `ParserProps.GreedyThen` gives a line in the language that
  is rejected, so completeness is not claimed. The converse is proved only for
  lines of bare operands (`ParserProps.AtomLineAccepted`). Two choices make a
  general statement hard: the greedy optional words, and the innermost
  binding of a dangling `else`.
- Python's recursion limit is not modelled. Each nested `if` costs two
  interpreter frames, because `parse_statement` calls `parse_A`
  (`compiler.py:176`) and `parse_A` calls `parse_statement` again
  (`compiler.py:152` and `compiler.py:159`). With the default limit of 1000
  frames, a line of roughly 500 nested `if`s raises `RecursionError`. That is
  neither a `ValueError` nor a `SyntaxError`, so it escapes the `try` of
  `compiler.py:226-233`: the run stops with a traceback and writes no output
  file. The model has unbounded recursion and labels every such line.

=== FILE: chars.dfy ===
/** Character classes used by the tokenizer.

    The scanner relies on Python's `str.isalpha`, `str.isdigit`, `str.isalnum`
    and `str.isspace`. This model restricts them to ASCII: every character
    outside these classes is scanned as a symbol. */
module Chars {

  /** `isalpha` on ASCII: an upper- or lower-case Latin letter. */
  predicate IsAlpha(c: char) {
    ('a' <= c <= 'z') || ('A' <= c <= 'Z')
  }

  /** `isdigit` on ASCII: a decimal digit. */
  predicate IsDigit(c: char) {
    '0' <= c <= '9'
  }

  /** `isalnum` on ASCII: a letter or a digit. */
  predicate IsAlnum(c: char) {
    IsAlpha(c) || IsDigit(c)
  }

  /** `isspace` on ASCII: tab, line feed, vertical tab, form feed, carriage
      return, the four information separators 0x1C-0x1F, and space. */
  predicate IsSpace(c: char) {
    (9 <= c as int <= 13) || (28 <= c as int <= 32)
  }

  /** The tokenizer's `is_alphanumeric` helper: a character that may continue
      a word (letter, digit or underscore). */
  predicate IsWordChar(c: char) {
    IsAlpha(c) || IsDigit(c) || c == '_'
  }
}

=== FILE: driver.dfy ===
/** The per-line labelling of the driver loop: strip the line, label a blank
    line "No Error" without scanning it, otherwise tokenize and parse it and
    label the first stage that fails. */
module Driver {
  import opened Chars
  import opened Tokens
  import opened Lexer
  import opened Parser
  import opened LexerProps

  /** The three labels; `Text` is the line written to the output file. */
  datatype Label = NoError | LexicalError | SyntaxError {
    function Text(): string {
      match this
      case NoError => "No Error\n"
      case LexicalError => "Lexical Error\n"
      case SyntaxError => "Syntax Error\n"
    }
  }

  /** Each output line names exactly one label. */
  lemma TextDistinct(a: Label, b: Label)
    ensures a.Text() == b.Text() <==> a == b
  {
  }

  /** `str.lstrip()`: the suffix left after dropping leading whitespace. */
  function TrimStart(s: string): (r: string)
    ensures |r| <= |s| && r == s[|s| - |r|..]
    ensures AllSpace(s[..|s| - |r|])
    ensures r == [] || !IsSpace(r[0])
  {
    if |s| > 0 && IsSpace(s[0]) then
      var r := TrimStart(s[1..]);
      assert s[1..][..|s| - 1 - |r|] == s[1..|s| - |r|];
      r
    else s
  }

  /** `str.rstrip()`: the prefix left after dropping trailing whitespace. */
  function TrimEnd(s: string): (r: string)
    ensures |r| <= |s| && r == s[..|r|]
    ensures AllSpace(s[|r|..])
    ensures r == [] || !IsSpace(r[|r| - 1])
  {
    if |s| > 0 && IsSpace(s[|s| - 1]) then
      var r := TrimEnd(s[..|s| - 1]);
      assert AllSpace(s[|r|..]) by {
        forall k | |r| <= k < |s| ensures IsSpace(s[k]) {
          if k < |s| - 1 {
            assert s[k] == s[..|s| - 1][|r|..][k - |r|];
          }
        }
      }
      r
    else s
  }

  /** A line is all whitespace exactly when both parts of any split are. */
  lemma AllSpaceSplit(s: string, i: nat)
    requires i <= |s|
    ensures AllSpace(s) <==> AllSpace(s[..i]) && AllSpace(s[i..])
  {
    if AllSpace(s[..i]) && AllSpace(s[i..]) {
      forall k | 0 <= k < |s| ensures IsSpace(s[k]) {
        if k < i {
          assert s[k] == s[..i][k];
        } else {
          assert s[k] == s[i..][k - i];
        }
      }
    }
  }

  /** `s` is `r` with whitespace, and only whitespace, around it. */
  predicate SpacePadded(s: string, r: string) {
    exists i | 0 <= i <= |s| - |r| ::
      r == s[i..i + |r|] && AllSpace(s[..i]) && AllSpace(s[i + |r|..])
  }

  /** `str.strip()`: drops whitespace at both ends, and only there. The result
      is empty exactly for an all-whitespace line. */
  function Strip(s: string): (r: string)
    ensures SpacePadded(s, r)
    ensures r == [] <==> AllSpace(s)
    ensures r != [] ==> !IsSpace(r[0]) && !IsSpace(r[|r| - 1])
  {
    var t := TrimStart(s);
    var r := TrimEnd(t);
    SpaceInfix(s, t, r);
    TrimBoth(s, t, r);
    r
  }

  /** Dropping a whitespace prefix and then a whitespace suffix leaves an
      infix of the line, with whitespace on both sides and nothing else
      removed. */
  lemma SpaceInfix(s: string, t: string, r: string)
    requires |t| <= |s| && t == s[|s| - |t|..] && AllSpace(s[..|s| - |t|])
    requires |r| <= |t| && r == t[..|r|] && AllSpace(t[|r|..])
    ensures SpacePadded(s, r)
  {
    var i := |s| - |t|;
    var n := |r|;
    assert r == s[i..i + n] by {
      forall k | 0 <= k < n ensures r[k] == s[i + k] {
        assert r[k] == t[k] == s[i..][k];
      }
    }
    assert AllSpace(s[i + n..]) by {
      forall k | i + n <= k < |s| ensures IsSpace(s[k]) {
        assert s[k] == t[n..][k - (i + n)];
      }
    }
    assert r == s[i..i + |r|] && AllSpace(s[..i]) && AllSpace(s[i + |r|..]);
  }

  /** Stripping both ends keeps a non-space text exactly when the line has a
      non-space character. */
  lemma TrimBoth(s: string, t: string, r: string)
    requires |t| <= |s| && t == s[|s| - |t|..] && AllSpace(s[..|s| - |t|])
    requires t == [] || !IsSpace(t[0])
    requires |r| <= |t| && r == t[..|r|] && AllSpace(t[|r|..])
    requires r == [] || !IsSpace(r[|r| - 1])
    ensures r == [] <==> AllSpace(s)
    ensures r != [] ==> !IsSpace(r[0]) && !IsSpace(r[|r| - 1])
  {
    assert AllSpace(s) <==> AllSpace(t) by {
      AllSpaceSplit(s, |s| - |t|);
      assert s[|s| - |t|..] == t;
    }
    assert AllSpace(t) <==> AllSpace(r) by {
      AllSpaceSplit(t, |r|);
      assert t[..|r|] == r;
    }
    if r != [] {
      assert !IsSpace(r[|r| - 1]);
      assert r[0] == t[0];
    }
  }

  /** The body of the driver loop for one line. The strip step and the
      blank-line shortcut are transparent: the label is the one obtained by
      tokenizing and parsing the raw line directly. A lexical error is
      reported exactly when the scan fails, a syntax error exactly when the
      scan succeeds and the parser rejects the tokens. */
  function Classify(line: string): (r: Label)
    ensures r == LexicalError <==> Tokenize(line).LexErr?
    ensures r == SyntaxError <==>
              Tokenize(line).Lexed? && CheckGrammar(Tokenize(line).tokens).Rejected?
    ensures r == NoError <==>
              Tokenize(line).Lexed? && CheckGrammar(Tokenize(line).tokens).Accepted?
  {
    var code := Strip(line);
    StripKeepsTokens(line);
    if |code| == 0 then
      BlankIffNoTokens(line);
      NoError
    else
      match Tokenize(code)
      case LexErr(_) => LexicalError
      case Lexed(toks) => if CheckGrammar(toks).Accepted? then NoError else SyntaxError
  }

  /** Leading whitespace never changes the scan. */
  lemma {:induction false} TrimStartKeepsTokens(s: string)
    ensures Tokenize(TrimStart(s)) == Tokenize(s)
    decreases |s|
  {
    if |s| > 0 && IsSpace(s[0]) {
      TrimStartKeepsTokens(s[1..]);
    }
  }

  /** Trailing whitespace never changes the scan. */
  lemma {:induction false} TrimEndKeepsTokens(s: string)
    ensures Tokenize(TrimEnd(s)) == Tokenize(s)
    decreases |s|
  {
    if |s| > 0 && IsSpace(s[|s| - 1]) {
      var init := s[..|s| - 1];
      assert s == init + [s[|s| - 1]] + [];
      SpaceSplits(init, s[|s| - 1], []);
      var left := Tokenize(init);
      assert Tokenize([]) == Lexed([]);
      assert left.Lexed? ==> left.tokens + [] == left.tokens;
      assert Tokenize(s) == left;
      TrimEndKeepsTokens(init);
    }
  }

  /** Stripping the line never changes the scan. */
  lemma StripKeepsTokens(s: string)
    ensures Tokenize(Strip(s)) == Tokenize(s)
  {
    TrimStartKeepsTokens(s);
    TrimEndKeepsTokens(TrimStart(s));
  }

  /** An empty or all-whitespace line is labelled "No Error", and running the
      full pipeline on it would agree: it scans to no tokens, which parse. */
  lemma BlankLineNoError(line: string)
    requires AllSpace(line)
    ensures Classify(line) == NoError
    ensures Tokenize(line) == Lexed([]) && CheckGrammar([]) == Accepted
  {
    BlankIffNoTokens(line);
  }

  /** A line written from well-formed tokens, one space between neighbours,
      is never a lexical error: it is labelled "No Error" exactly when the
      parser accepts those tokens. */
  lemma ClassifyUnlex(ts: seq<Token>)
    requires forall k | 0 <= k < |ts| :: WellFormed(ts[k])
    ensures Classify(Unlex(ts)) != LexicalError
    ensures Classify(Unlex(ts)) == NoError <==> CheckGrammar(ts).Accepted?
  {
    UnlexRoundTrip(ts);
  }

  /** The driver loop over the lines of the input, for any per-line
      computation: one result per line, in input order. */
  method MapLines<T>(lines: seq<string>, f: string -> T) returns (out: seq<T>)
    ensures |out| == |lines|
    ensures forall i | 0 <= i < |lines| :: out[i] == f(lines[i])
  {
    out := [];
    var i := 0;
    while i < |lines|
      invariant i <= |lines|
      invariant |out| == i
      invariant forall k | 0 <= k < i :: out[k] == f(lines[k])
    {
      out := out + [f(lines[i])];
      i := i + 1;
    }
  }

  /** The lines written to the output file: for each input line, in order,
      the text of its label. */
  method ClassifyLines(lines: seq<string>) returns (output: seq<string>)
    ensures |output| == |lines|
    ensures forall i | 0 <= i < |lines| :: output[i] == Classify(lines[i]).Text()
  {
    output := MapLines(lines, line => Classify(line).Text());
  }
}

=== FILE: examples.dfy ===
/** Concrete lines and the outcome the model gives them. Longer lines are
    given as their token lists; the line itself is those lexemes separated
    by single spaces (`Unlex`). */
module Examples {
  import opened Tokens
  import opened Lexer
  import opened LexerProps
  import opened Parser
  import opened Driver

  /** `123abc`: a number immediately followed by letters is one rejected
      lexeme. */
  lemma NumberGluedToWord()
    ensures Tokenize("123abc") == LexErr("123abc")
    ensures Classify("123abc") == LexicalError
  {
    var line := "123abc";
    GluedRunRaises(line, 3);
    assert WordEnd(line, 3) == 6;
    assert line[..6] == line;
  }

  /** A dot inside a number is absorbed even when no digit follows it, and
      only a dot followed by a digit makes the number a float. */
  lemma DotsInNumbers()
    ensures Tokenize("5.") == Lexed([Token(Integer, "5.")])
    ensures Tokenize("1.2.3") == Lexed([Token(Float, "1.2.3")])
  {
    assert !FractionIn("5.", 0, 2);
    Retokenize(Token(Integer, "5."));
    assert "1.2.3"[1] == '.' && "1.2.3"[2] == '2';
    assert FractionIn("1.2.3", 0, 5);
    Retokenize(Token(Float, "1.2.3"));
  }

  /** `_x`: a leading underscore is not a letter; it is a symbol of its own. */
  lemma LeadingUnderscore()
    ensures Tokenize("_x") == Lexed([Token(Symbol, "_"), Token(Identifier, "x")])
  {
    assert "_x"[..1] == "_" && "_x"[1..] == "x";
    Retokenize(Token(Identifier, "x"));
  }

  /** `x = 5` */
  const Assignment: seq<Token> := [Token(Identifier, "x"), Token(Symbol, "="), Token(Integer, "5")]

  /** `if x < 5 then print else print endif` */
  const IfElse: seq<Token> :=
    [Token(Keyword, "if"), Token(Identifier, "x"), Token(Symbol, "<"), Token(Integer, "5"),
     Token(Identifier, "then"), Token(Keyword, "print"), Token(Keyword, "else"),
     Token(Keyword, "print"), Token(Identifier, "endif")]

  /** `if if x then print` */
  const NestedIf: seq<Token> :=
    [Token(Keyword, "if"), Token(Keyword, "if"), Token(Identifier, "x"),
     Token(Identifier, "then"), Token(Keyword, "print")]

  /** `x ;` */
  const Terminated: seq<Token> := [Token(Identifier, "x"), Token(Symbol, ";")]

  /** `; x` */
  const AfterTerminator: seq<Token> := [Token(Symbol, ";"), Token(Identifier, "x")]

  /** Every token of the example lines is one the tokenizer produces. */
  predicate AllWellFormed(ts: seq<Token>) {
    forall k | 0 <= k < |ts| :: WellFormed(ts[k])
  }

  lemma AssignmentWellFormed()
    ensures AllWellFormed(Assignment)
  {
    assert WellFormed(Assignment[0]) && WellFormed(Assignment[1]);
    assert WellFormed(Assignment[2]);
  }

  /** The three reserved words are well-formed keyword tokens. */
  lemma KeywordsWellFormed()
    ensures WellFormed(Token(Keyword, "if"))
    ensures WellFormed(Token(Keyword, "else"))
    ensures WellFormed(Token(Keyword, "print"))
  {
  }

  lemma IfElseWellFormed()
    ensures AllWellFormed(IfElse)
  {
    KeywordsWellFormed();
    assert WellFormed(IfElse[1]) && WellFormed(IfElse[2]) && WellFormed(IfElse[3]);
    assert WellFormed(IfElse[4]) && WellFormed(IfElse[8]);
  }

  lemma NestedIfWellFormed()
    ensures AllWellFormed(NestedIf)
  {
    KeywordsWellFormed();
    assert WellFormed(NestedIf[2]) && WellFormed(NestedIf[3]);
  }

  lemma TerminatorsWellFormed()
    ensures AllWellFormed(Terminated)
    ensures AllWellFormed(AfterTerminator)
  {
    assert WellFormed(Terminated[0]) && WellFormed(Terminated[1]);
    assert WellFormed(AfterTerminator[0]) && WellFormed(AfterTerminator[1]);
  }

  /** An assignment is not a statement: `x` is one, and `=` cannot start
      the next. */
  lemma AssignmentParses()
    ensures CheckGrammar(Assignment) == Verdict.Rejected(InvalidStatementStart)
  {
    var ts := Assignment;
    assert ParseStatement(ts, 0) == Ok(1);
    assert ParseStatement(ts, 1) == SynErr(InvalidStatementStart);
    assert ParseStatements(ts, 0) == SynErr(InvalidStatementStart);
  }

  lemma AssignmentRejected()
    ensures Classify(Unlex(Assignment)) == SyntaxError
  {
    AssignmentWellFormed();
    AssignmentParses();
    ClassifyUnlex(Assignment);
  }

  lemma IfElseParses()
    ensures CheckGrammar(IfElse) == Accepted
  {
    var ts := IfElse;
    assert ParseX(ts, 1) == Ok(2);
    assert ParseX(ts, 3) == Ok(4);
    assert CondTail(ts, 4) == Ok(4);
    assert CondTail(ts, 2) == Ok(4);
    assert ParseCond(ts, 1) == Ok(4);
    assert ParseStatement(ts, 5) == Ok(6);
    assert ParseStatement(ts, 7) == Ok(8);
    assert ParseA(ts, 1) == Ok(9);
    assert ParseStatement(ts, 0) == Ok(9);
    assert ParseStatements(ts, 0) == Ok(9);
  }

  /** A full if-construct with `then`, `else` and `endif` is accepted. */
  lemma IfThenElseAccepted()
    ensures Classify(Unlex(IfElse)) == NoError
  {
    IfElseWellFormed();
    IfElseParses();
    ClassifyUnlex(IfElse);
  }

  /** `if` cannot be an operand of a condition. */
  lemma IfInConditionParses()
    ensures CheckGrammar(NestedIf) == Verdict.Rejected(KeywordInCondition)
  {
    var ts := NestedIf;
    assert ParseX(ts, 1) == SynErr(KeywordInCondition);
    assert ParseStatement(ts, 0) == SynErr(KeywordInCondition);
    assert ParseStatements(ts, 0) == SynErr(KeywordInCondition);
  }

  lemma IfInCondition()
    ensures Classify(Unlex(NestedIf)) == SyntaxError
  {
    NestedIfWellFormed();
    IfInConditionParses();
    ClassifyUnlex(NestedIf);
  }

  /** `;` ends the line: nothing may follow it. */
  lemma TerminatorParses()
    ensures CheckGrammar(Terminated) == Accepted
    ensures CheckGrammar(AfterTerminator) == Verdict.Rejected(TrailingToken)
  {
    assert ParseStatements(Terminated, 1) == Ok(2);
    assert ParseStatements(Terminated, 0) == Ok(2);
    assert ParseStatements(AfterTerminator, 0) == Ok(1);
  }

  lemma Terminator()
    ensures Classify(Unlex(Terminated)) == NoError
    ensures Classify(Unlex(AfterTerminator)) == SyntaxError
  {
    TerminatorsWellFormed();
    TerminatorParses();
    ClassifyUnlex(Terminated);
    ClassifyUnlex(AfterTerminator);
  }
}

=== FILE: grammar.dfy ===
/** The language the parser recognises, stated declaratively over spans
    `toks[i..j]` of a token list, without cursors or lookahead:

      S          -> statement* [';']
      statement  -> 'if' A | y
      A          -> cond ['then'] statement ['else' statement ['endif']]
      cond       -> x (op1 x)*

    where `x` and `y` are single non-symbol tokens other than `if` and
    `else`, `op1` is an operator symbol, `if` and `else` are keyword tokens,
    and `then` and `endif` are identifier tokens. */
module Grammar {
  import opened Tokens
  import Parser

  /** `x` and `y`: a token of a starter kind whose lexeme is neither `if` nor
      `else` (a bare `if` is never a statement: it opens an if-construct). */
  predicate IsAtom(t: Token) {
    t.kind != Symbol && t.lexeme != "if" && t.lexeme != "else"
  }

  /** `op1`: a symbol token whose lexeme is an operator. */
  predicate IsOperator(t: Token) {
    t.kind == Symbol && t.lexeme in Parser.Operators
  }

  /** `cond`: operands and operators alternating, starting and ending with an
      operand. */
  predicate IsCond(toks: seq<Token>, i: nat, j: nat)
    requires i <= j <= |toks|
  {
    && (j - i) % 2 == 1
    && forall k | i <= k < j :: if (k - i) % 2 == 0 then IsAtom(toks[k]) else IsOperator(toks[k])
  }

  /** `statement` spanning `toks[i..j]`. */
  ghost predicate IsStatement(toks: seq<Token>, i: nat, j: nat)
    requires i <= j <= |toks|
    decreases j - i
  {
    || (j == i + 1 && IsAtom(toks[i]))
    || (i < j && toks[i] == Token(Keyword, "if") && IsIfRest(toks, i + 1, j))
  }

  /** `A` spanning `toks[i..j]`: a condition ending at `c`, an optional `then`,
      a statement from `t` to `e`, and an optional else part. */
  ghost predicate IsIfRest(toks: seq<Token>, i: nat, j: nat)
    requires i <= j <= |toks|
    decreases j - i
  {
    exists c, t, e ::
      && i < c <= t < e <= j
      && IsCond(toks, i, c)
      && (t == c || (t == c + 1 && toks[c] == Token(Identifier, "then")))
      && IsStatement(toks, t, e)
      && IsElsePart(toks, e, j)
  }

  /** `['else' statement ['endif']]` spanning `toks[e..j]`. */
  ghost predicate IsElsePart(toks: seq<Token>, e: nat, j: nat)
    requires e <= j <= |toks|
    decreases j - e
  {
    || e == j
    || (&& e < j
        && toks[e] == Token(Keyword, "else")
        && exists f ::
             && e + 1 < f <= j
             && IsStatement(toks, e + 1, f)
             && (f == j || (f + 1 == j && toks[f] == Token(Identifier, "endif"))))
  }

  /** `statement*` spanning `toks[i..j]`. */
  ghost predicate IsStatements(toks: seq<Token>, i: nat, j: nat)
    requires i <= j <= |toks|
    decreases j - i
  {
    || i == j
    || exists k :: i < k <= j && IsStatement(toks, i, k) && IsStatements(toks, k, j)
  }

  /** `S`: statements covering the whole line, or covering all of it but a
      final `;`. */
  ghost predicate IsLine(toks: seq<Token>) {
    || IsStatements(toks, 0, |toks|)
    || (|toks| > 0 && toks[|toks| - 1].lexeme == ";" && IsStatements(toks, 0, |toks| - 1))
  }
}

=== FILE: lexer.dfy ===
/** The tokenizer: one left-to-right scan of a line into (kind, lexeme)
    tokens, or a lexical error carrying the offending lexeme. */
module Lexer {
  import opened Chars
  import opened Tokens

  /** The outcome of `tokenize`: the token list, or the `ValueError` it raises,
      reduced to the lexeme it names. */
  datatype LexResult = Lexed(tokens: seq<Token>) | LexErr(lexeme: string)

  /** `is_valid_identifier`: non-empty, starts with a letter or underscore,
      continues with letters, digits or underscores. In particular it never
      accepts a lexeme that starts with a digit. */
  predicate IsValidIdentifier(lexeme: string)
    ensures IsValidIdentifier(lexeme) ==> |lexeme| > 0 && !IsDigit(lexeme[0])
  {
    && |lexeme| > 0
    && (IsAlpha(lexeme[0]) || lexeme[0] == '_')
    && forall k | 1 <= k < |lexeme| :: IsAlnum(lexeme[k]) || lexeme[k] == '_'
  }

  /** The shape of every lexeme the tokenizer rejects: a digit, then
      digits and dots, then a letter or underscore at some position `at`,
      then word characters only (the word run that follows stops at a dot
      or any other non-word character). */
  predicate IsGluedRun(lexeme: string) {
    && |lexeme| > 0
    && IsDigit(lexeme[0])
    && exists at | 0 < at < |lexeme| :: GluedAt(lexeme, at)
  }

  /** `lexeme` turns from a number into a word at position `at`. */
  predicate GluedAt(lexeme: string, at: nat)
    requires at < |lexeme|
  {
    && (forall m | 1 <= m < at :: IsDigit(lexeme[m]) || lexeme[m] == '.')
    && (IsAlpha(lexeme[at]) || lexeme[at] == '_')
    && (forall m | at <= m < |lexeme| :: IsWordChar(lexeme[m]))
  }

  /** The inner loop that extends a word: the first position at or after `j`
      that does not hold a word character. */
  function WordEnd(s: string, j: nat): (k: nat)
    requires j <= |s|
    ensures j <= k <= |s|
    ensures forall m | j <= m < k :: IsWordChar(s[m])
    ensures k == |s| || !IsWordChar(s[k])
    decreases |s| - j
  {
    if j < |s| && IsWordChar(s[j]) then WordEnd(s, j + 1) else j
  }

  /** Where the number scan stops: at `end` with the float flag, or at a
      letter or underscore `at` glued to the number, whose run ends at `end`. */
  datatype NumberScan = Number(end: nat, isFloat: bool) | Glued(at: nat, end: nat)

  /** Every character of `s[j..e]` is a digit or a dot. */
  predicate DigitsAndDots(s: string, j: nat, e: nat)
    requires j <= e <= |s|
  {
    forall m | j <= m < e :: IsDigit(s[m]) || s[m] == '.'
  }

  /** The number loop, resumed at position `j` with the float flag so far.
      Digits and dots are absorbed (a dot always; it sets the flag only when
      the next character is a digit). A letter or underscore switches to
      consuming the whole word run; anything else ends the number. */
  function ScanNumber(s: string, j: nat, isFloat: bool): (r: NumberScan)
    requires j <= |s|
    ensures r.Number? ==>
              && j <= r.end <= |s|
              && DigitsAndDots(s, j, r.end)
              && (r.end == |s| || !(IsWordChar(s[r.end]) || s[r.end] == '.'))
    ensures r.Glued? ==>
              && j <= r.at < r.end <= |s|
              && DigitsAndDots(s, j, r.at)
              && (IsAlpha(s[r.at]) || s[r.at] == '_')
              && r.end == WordEnd(s, r.at)
    decreases |s| - j
  {
    if j == |s| then Number(j, isFloat)
    else if s[j] == '.' then
      var r := ScanNumber(s, j + 1, isFloat || (j + 1 < |s| && IsDigit(s[j + 1])));
      if r.Number? then DigitsAndDotsStep(s, j, r.end); r
      else DigitsAndDotsStep(s, j, r.at); r
    else if IsWordChar(s[j]) && !IsDigit(s[j]) then Glued(j, WordEnd(s, j))
    else if !IsDigit(s[j]) then Number(j, isFloat)
    else
      var r := ScanNumber(s, j + 1, isFloat);
      if r.Number? then DigitsAndDotsStep(s, j, r.end); r
      else DigitsAndDotsStep(s, j, r.at); r
  }

  /** A digit or dot in front of a run of digits and dots extends the run. */
  lemma DigitsAndDotsStep(s: string, j: nat, e: nat)
    requires j < e <= |s|
    requires IsDigit(s[j]) || s[j] == '.'
    requires DigitsAndDots(s, j + 1, e)
    ensures DigitsAndDots(s, j, e)
  {
  }

  /** The float flag the number loop ends with is set exactly when the scanned
      number holds a dot followed by a digit, or the flag was already set. */
  lemma {:induction false} ScanNumberFloat(s: string, j: nat, isFloat: bool)
    requires j <= |s|
    ensures var r := ScanNumber(s, j, isFloat);
            r.Number? ==> r.isFloat == (isFloat || FractionIn(s, j, r.end))
    decreases |s| - j
  {
    var r := ScanNumber(s, j, isFloat);
    if j < |s| && r.Number? {
      if s[j] == '.' {
        var f := isFloat || (j + 1 < |s| && IsDigit(s[j + 1]));
        ScanNumberFloat(s, j + 1, f);
        assert j + 1 < |s| && IsDigit(s[j + 1]) ==> j + 1 < r.end;
        FractionStep(s, j, r.end);
      } else if IsDigit(s[j]) {
        ScanNumberFloat(s, j + 1, isFloat);
        FractionStep(s, j, r.end);
      }
    }
  }

  /** A fraction in `s[j..end]` starts at `j` or lies in `s[j + 1..end]`. */
  lemma FractionStep(s: string, j: nat, end: nat)
    requires j < end <= |s|
    ensures FractionIn(s, j, end) <==>
              (s[j] == '.' && j + 1 < end && IsDigit(s[j + 1])) || FractionIn(s, j + 1, end)
  {
    if FractionIn(s, j, end) {
      var m :| j <= m && m + 1 < end && s[m] == '.' && IsDigit(s[m + 1]);
      if m > j {
        assert FractionIn(s, j + 1, end);
      }
    }
  }

  /** Whether a span holds a fraction does not depend on what follows it. */
  lemma FractionPrefix(s: string, end: nat)
    requires end <= |s|
    ensures FractionIn(s[..end], 0, end) <==> FractionIn(s, 0, end)
  {
    if FractionIn(s, 0, end) {
      var m :| 0 <= m && m + 1 < end && s[m] == '.' && IsDigit(s[m + 1]);
      assert s[..end][m] == '.' && IsDigit(s[..end][m + 1]);
    }
  }

  /** Prepends a token to a successful rest of the scan; an error wins. */
  function Emit(t: Token, rest: LexResult): LexResult {
    if rest.Lexed? then Lexed([t] + rest.tokens) else rest
  }

  /** What one pass of the scan loop finds at a non-space character: a
      token of the given kind ending at `end`, or a rejected lexeme ending at
      `end`. */
  datatype Lexeme = Scanned(kind: Kind, end: nat) | Malformed(end: nat)

  /** One pass of the scan loop at a non-whitespace character `s[0]`: a word
      when it is a letter, a number when it is a digit, otherwise a
      one-character symbol. The lexeme is never empty, a scanned lexeme has
      the kind its shape determines, a word or number is the longest run its
      rule allows (a number never stops before a dot), and a rejected lexeme
      is a number glued to a word, taken through the end of that word. */
  function ScanLexeme(s: string): (r: Lexeme)
    requires |s| > 0 && !IsSpace(s[0])
    ensures 0 < r.end <= |s|
    ensures r.Scanned? ==> WellFormed(Token(r.kind, s[..r.end]))
    ensures r.Scanned? && r.kind != Symbol && r.end < |s| ==> !IsWordChar(s[r.end])
    ensures r.Scanned? && r.kind == Symbol ==> r.end == 1
    ensures IsDigit(s[0]) && r.Scanned? && r.end < |s| ==> s[r.end] != '.'
    ensures r.Malformed? ==> IsGluedRun(s[..r.end])
    ensures r.Malformed? ==> r.end == |s| || !IsWordChar(s[r.end])
  {
    if IsAlpha(s[0]) then
      var k := WordEnd(s, 1);
      var lexeme := s[..k];
      if lexeme in Keywords then Scanned(Keywords[lexeme], k)
      else if IsValidIdentifier(lexeme) then Scanned(Identifier, k)
      else Malformed(k)
    else if IsDigit(s[0]) then
      ScanNumberFloat(s, 1, false);
      match ScanNumber(s, 1, false)
      case Glued(at, end) =>
        GluedShape(s, at, end);
        Malformed(end)
      case Number(end, isFloat) =>
        FractionStep(s, 0, end);
        FractionPrefix(s, end);
        Scanned(if isFloat then Float else Integer, end)
    else Scanned(Symbol, 1)
  }

  /** Digits and dots up to `at`, a letter or underscore there, and word
      characters up to `end`: the text up to `end` is a glued run. */
  lemma GluedShape(s: string, at: nat, end: nat)
    requires 0 < at < end <= |s|
    requires IsDigit(s[0]) && DigitsAndDots(s, 1, at)
    requires IsAlpha(s[at]) || s[at] == '_'
    requires forall m | at <= m < end :: IsWordChar(s[m])
    ensures IsGluedRun(s[..end])
  {
    assert GluedAt(s[..end], at);
  }

  /** `x` occurs in `s` as a contiguous piece: it is a prefix of some
      suffix of `s`. */
  predicate OccursIn(x: string, s: string) {
    exists i | 0 <= i <= |s| :: x <= s[i..]
  }

  /** A piece found at position `i` occurs in the text. */
  lemma OccursAt(x: string, s: string, i: nat)
    requires i + |x| <= |s| && s[i..i + |x|] == x
    ensures OccursIn(x, s)
  {
    assert x <= s[i..];
  }

  /** An error lexeme found in a suffix of the line occurs in the line. */
  lemma ErrInSuffix(r: LexResult, s: string, k: nat)
    requires k <= |s|
    requires r.LexErr? ==> OccursIn(r.lexeme, s[k..])
    ensures r.LexErr? ==> OccursIn(r.lexeme, s)
  {
    if r.LexErr? {
      var x := r.lexeme;
      var i :| 0 <= i <= |s[k..]| && x <= s[k..][i..];
      assert s[k..][i..] == s[k + i..];
    }
  }

  /** `tokenize`: skip whitespace, scan one lexeme, continue after it; the
      first rejected lexeme aborts the line. Every token it produces has the
      kind its lexeme's shape determines, and every lexeme it rejects is a
      number glued to a word. */
  function Tokenize(s: string): (r: LexResult)
    ensures r.Lexed? ==> forall k | 0 <= k < |r.tokens| :: WellFormed(r.tokens[k])
    ensures r.LexErr? ==> IsGluedRun(r.lexeme)
    decreases |s|
  {
    if |s| == 0 then Lexed([])
    else if IsSpace(s[0]) then Tokenize(s[1..])
    else
      match ScanLexeme(s)
      case Malformed(end) => LexErr(s[..end])
      case Scanned(kind, end) => Emit(Token(kind, s[..end]), Tokenize(s[end..]))
  }

  /** The lexeme a failed scan reports is a piece of the line itself: the
      error is raised on text that stands in the line. */
  lemma {:induction false} ErrLexemeInLine(s: string)
    requires Tokenize(s).LexErr?
    ensures OccursIn(Tokenize(s).lexeme, s)
    decreases |s|
  {
    if IsSpace(s[0]) {
      ErrLexemeInLine(s[1..]);
      ErrInSuffix(Tokenize(s[1..]), s, 1);
    } else {
      match ScanLexeme(s)
      case Malformed(end) =>
        OccursAt(s[..end], s, 0);
      case Scanned(kind, end) =>
        ErrLexemeInLine(s[end..]);
        ErrInSuffix(Tokenize(s[end..]), s, end);
    }
  }
}

=== FILE: lexer_props.dfy ===
/** Properties of the tokenizer that relate several calls or the line as a
    whole: the round trip through whitespace removal, re-tokenizing a single
    lexeme, splitting a line at a whitespace character, and the lexical error
    raised by a number glued to a word. */
module LexerProps {
  import opened Chars
  import opened Tokens
  import opened Lexer

  /** The line with every whitespace character removed. */
  function Squeeze(s: string): string {
    if |s| == 0 then []
    else if IsSpace(s[0]) then Squeeze(s[1..])
    else [s[0]] + Squeeze(s[1..])
  }

  /** The lexemes of a token list written one after another. */
  function Concat(ts: seq<Token>): string {
    if |ts| == 0 then [] else ts[0].lexeme + Concat(ts[1..])
  }

  /** Combines the results of scanning two pieces of a line in order. */
  function Join(left: LexResult, right: LexResult): LexResult {
    if left.LexErr? then left
    else if right.LexErr? then right
    else Lexed(left.tokens + right.tokens)
  }

  predicate SpaceFree(s: string) {
    forall k | 0 <= k < |s| :: !IsSpace(s[k])
  }

  predicate AllSpace(s: string) {
    forall k | 0 <= k < |s| :: IsSpace(s[k])
  }

  /** A space-free prefix survives whitespace removal unchanged. */
  lemma {:induction false} SqueezeSplit(s: string, k: nat)
    requires k <= |s|
    requires SpaceFree(s[..k])
    ensures Squeeze(s) == s[..k] + Squeeze(s[k..])
    decreases k
  {
    if k > 0 {
      var tail := s[1..];
      assert s[..k][0] == s[0];
      assert tail[..k - 1] == s[1..k];
      assert SpaceFree(tail[..k - 1]) by {
        forall m | 0 <= m < k - 1 ensures !IsSpace(s[1..k][m]) {
          assert s[1..k][m] == s[..k][m + 1];
        }
      }
      SqueezeSplit(tail, k - 1);
      assert tail[k - 1..] == s[k..];
      assert s[..k] == [s[0]] + s[1..k];
    } else {
      assert s[..0] == [] && s[0..] == s;
    }
  }

  /** No well-formed lexeme contains whitespace. */
  lemma WellFormedSpaceFree(t: Token)
    requires WellFormed(t)
    ensures SpaceFree(t.lexeme)
  {
  }

  /** Round trip: the lexemes of a successful scan, written one after
      another, give back the line with its whitespace removed, and no lexeme
      contains whitespace. */
  lemma {:induction false} RoundTrip(s: string)
    requires Tokenize(s).Lexed?
    ensures Concat(Tokenize(s).tokens) == Squeeze(s)
    ensures forall k | 0 <= k < |Tokenize(s).tokens| :: SpaceFree(Tokenize(s).tokens[k].lexeme)
    decreases |s|
  {
    var ts := Tokenize(s).tokens;
    forall k | 0 <= k < |ts| ensures SpaceFree(ts[k].lexeme) {
      WellFormedSpaceFree(ts[k]);
    }
    if |s| == 0 {
    } else if IsSpace(s[0]) {
      RoundTrip(s[1..]);
    } else {
      var end := ScanLexeme(s).end;
      assert Tokenize(s[end..]).Lexed?;
      assert ts == [Token(ts[0].kind, s[..end])] + Tokenize(s[end..]).tokens;
      RoundTrip(s[end..]);
      WellFormedSpaceFree(ts[0]);
      SqueezeSplit(s, end);
      assert ts[1..] == Tokenize(s[end..]).tokens;
    }
  }

  /** Whitespace removal leaves nothing exactly when the text is all
      whitespace. */
  lemma {:induction false} SqueezeEmpty(s: string)
    ensures Squeeze(s) == [] <==> AllSpace(s)
    decreases |s|
  {
    if |s| > 0 {
      SqueezeEmpty(s[1..]);
      assert AllSpace(s) <==> IsSpace(s[0]) && AllSpace(s[1..]) by {
        if IsSpace(s[0]) && AllSpace(s[1..]) {
          forall k | 0 <= k < |s| ensures IsSpace(s[k]) {
            if k > 0 { assert s[k] == s[1..][k - 1]; }
          }
        }
      }
    }
  }

  /** An empty or all-whitespace line, and only such a line, scans to the
      empty token list. */
  lemma BlankIffNoTokens(s: string)
    ensures Tokenize(s) == Lexed([]) <==> AllSpace(s)
  {
    SqueezeEmpty(s);
    if Tokenize(s) == Lexed([]) {
      RoundTrip(s);
    }
    if AllSpace(s) {
      AllSpaceScansEmpty(s);
    }
  }

  lemma {:induction false} AllSpaceScansEmpty(s: string)
    requires AllSpace(s)
    ensures Tokenize(s) == Lexed([])
    decreases |s|
  {
    if |s| > 0 {
      assert AllSpace(s[1..]) by {
        forall k | 0 <= k < |s| - 1 ensures IsSpace(s[1..][k]) {
          assert s[1..][k] == s[k + 1];
        }
      }
      AllSpaceScansEmpty(s[1..]);
    }
  }

  /** `is_valid_identifier` against the reference classification: a
      letter-led lexeme that is not a keyword has the shape of an identifier
      exactly when `is_valid_identifier` accepts it. */
  lemma IdentifierShape(lexeme: string)
    requires |lexeme| > 0 && IsAlpha(lexeme[0]) && lexeme !in Keywords
    ensures KindOfLexeme(lexeme) == Some(Identifier) <==> IsValidIdentifier(lexeme)
  {
  }

  /** The word loop only gathers letters, digits and underscores after the
      first letter, so a letter-led word always passes `is_valid_identifier`. */
  lemma WordIsIdentifier(s: string)
    requires |s| > 0 && IsAlpha(s[0])
    ensures IsValidIdentifier(s[..WordEnd(s, 1)])
  {
    var k := WordEnd(s, 1);
    forall m | 1 <= m < k ensures IsAlnum(s[..k][m]) || s[..k][m] == '_' {
      assert s[..k][m] == s[m];
    }
  }

  /** Hence the `Invalid identifier` error of the word branch is never
      raised: a letter-led text always yields a token. */
  lemma WordScanned(s: string)
    requires |s| > 0 && IsAlpha(s[0])
    ensures ScanLexeme(s).Scanned?
  {
    WordIsIdentifier(s);
  }

  /** Idempotence: the lexeme of any well-formed token, scanned on its own,
      gives back exactly that token. */
  lemma Retokenize(t: Token)
    requires WellFormed(t)
    ensures Tokenize(t.lexeme) == Lexed([t])
  {
    var s := t.lexeme;
    if IsDigit(s[0]) {
      var r := ScanNumber(s, 1, false);
      ScanNumberFloat(s, 1, false);
      assert r.Number? && r.end == |s|;
      assert FractionIn(s, 1, |s|) == FractionIn(s, 0, |s|);
    } else if IsAlpha(s[0]) {
      assert WordEnd(s, 1) == |s|;
      assert s[..|s|] == s;
      if s in Keywords {
        assert Keywords[s] == Keyword;
      } else {
        assert IsValidIdentifier(s);
      }
    }
    assert ScanLexeme(s) == Scanned(t.kind, |s|);
    assert s[..|s|] == s && s[|s|..] == [];
  }

  /** A word run ends at the same place whether or not a text starting with
      a non-word character follows. */
  lemma {:induction false} WordEndAppend(a: string, t: string, j: nat)
    requires j <= |a|
    requires |t| > 0 && !IsWordChar(t[0])
    ensures WordEnd(a + t, j) == WordEnd(a, j)
    decreases |a| - j
  {
    if j < |a| {
      assert (a + t)[j] == a[j];
      if IsWordChar(a[j]) {
        WordEndAppend(a, t, j + 1);
      }
    } else {
      assert (a + t)[j] == t[0];
    }
  }

  /** A character that neither a word nor a number runs over: not a word
      character and not a dot. Whitespace is one. */
  predicate EndsLexeme(c: char) {
    !IsWordChar(c) && c != '.'
  }

  /** A number scan stops at the same place whether or not a text starting
      with a character that ends lexemes follows. */
  lemma {:induction false} ScanNumberAppend(a: string, t: string, j: nat, isFloat: bool)
    requires j <= |a|
    requires |t| > 0 && EndsLexeme(t[0])
    ensures ScanNumber(a + t, j, isFloat) == ScanNumber(a, j, isFloat)
    decreases |a| - j
  {
    var s := a + t;
    if j == |a| {
      assert s[j] == t[0];
    } else {
      assert s[j] == a[j];
      if a[j] == '.' {
        if j + 1 < |a| {
          assert s[j + 1] == a[j + 1];
        } else {
          assert s[j + 1] == t[0];
        }
        ScanNumberAppend(a, t, j + 1, isFloat || (j + 1 < |a| && IsDigit(a[j + 1])));
      } else if IsWordChar(a[j]) && !IsDigit(a[j]) {
        WordEndAppend(a, t, j);
      } else if IsDigit(a[j]) {
        ScanNumberAppend(a, t, j + 1, isFloat);
      }
    }
  }

  /** One lexeme is scanned the same whether or not a text starting with a
      character that ends lexemes follows it. */
  lemma ScanLexemeAppend(a: string, t: string)
    requires |a| > 0 && !IsSpace(a[0])
    requires |t| > 0 && EndsLexeme(t[0])
    ensures ScanLexeme(a + t) == ScanLexeme(a)
  {
    var s := a + t;
    assert s[0] == a[0];
    if IsAlpha(a[0]) {
      WordEndAppend(a, t, 1);
      assert s[..WordEnd(a, 1)] == a[..WordEnd(a, 1)];
    } else if IsDigit(a[0]) {
      ScanNumberAppend(a, t, 1, false);
    }
  }

  /** Whitespace separates tokens: scanning a line that is split at a
      whitespace character gives the tokens of the part before it followed by
      those of the part after it, and the first error of the two parts. */
  lemma {:induction false} SpaceSplits(a: string, c: char, b: string)
    requires IsSpace(c)
    ensures Tokenize(a + [c] + b) == Join(Tokenize(a), Tokenize(b))
    decreases |a|
  {
    var t := [c] + b;
    var s := a + [c] + b;
    assert s == a + t;
    if |a| == 0 {
      assert s == t && s[1..] == b;
    } else if IsSpace(a[0]) {
      assert s[0] == a[0] && s[1..] == a[1..] + [c] + b;
      SpaceSplits(a[1..], c, b);
    } else {
      assert s[0] == a[0];
      ScanLexemeAppend(a, t);
      var end := ScanLexeme(a).end;
      assert s[..end] == a[..end];
      match ScanLexeme(a)
      case Malformed(_) =>
        assert Tokenize(s) == LexErr(a[..end]);
      case Scanned(kind, _) =>
        assert s[end..] == a[end..] + [c] + b;
        assert Tokenize(s) == Emit(Token(kind, a[..end]), Tokenize(a[end..] + [c] + b));
        SpaceSplits(a[end..], c, b);
        EmitJoin(Token(kind, a[..end]), Tokenize(a[end..]), Tokenize(b));
    }
  }

  /** A symbol character that ends lexemes separates tokens too: scanning a
      line split at it gives the tokens of the part before it, the symbol
      itself, and the tokens of the part after it, with the first error of
      the two parts. */
  lemma {:induction false} SymbolSplits(a: string, c: char, b: string)
    requires !IsSpace(c) && EndsLexeme(c)
    ensures Tokenize(a + [c] + b) == Join(Tokenize(a), Emit(Token(Symbol, [c]), Tokenize(b)))
    decreases |a|
  {
    var t := [c] + b;
    var s := a + [c] + b;
    assert s == a + t;
    if |a| == 0 {
      assert s == t;
      SymbolPassesThrough(c, b);
      var right := Emit(Token(Symbol, [c]), Tokenize(b));
      assert right.Lexed? ==> [] + right.tokens == right.tokens;
    } else if IsSpace(a[0]) {
      assert s[0] == a[0] && s[1..] == a[1..] + [c] + b;
      SymbolSplits(a[1..], c, b);
    } else {
      assert s[0] == a[0];
      ScanLexemeAppend(a, t);
      var end := ScanLexeme(a).end;
      assert s[..end] == a[..end];
      match ScanLexeme(a)
      case Malformed(_) =>
        assert Tokenize(s) == LexErr(a[..end]);
      case Scanned(kind, _) =>
        assert s[end..] == a[end..] + [c] + b;
        assert Tokenize(s) == Emit(Token(kind, a[..end]), Tokenize(a[end..] + [c] + b));
        SymbolSplits(a[end..], c, b);
        EmitJoin(Token(kind, a[..end]), Tokenize(a[end..]), Emit(Token(Symbol, [c]), Tokenize(b)));
    }
  }

  lemma EmitJoin(t: Token, left: LexResult, right: LexResult)
    ensures Emit(t, Join(left, right)) == Join(Emit(t, left), right)
  {
    if left.Lexed? && right.Lexed? {
      assert [t] + (left.tokens + right.tokens) == ([t] + left.tokens) + right.tokens;
    }
  }

  /** A lexeme that starts with a digit, continues with digits and dots up to
      position `at`, and has a letter or underscore there is rejected: the
      scan raises a lexical error whose lexeme is the whole run, through the
      end of the word characters that follow. */
  lemma {:induction false} GluedRunRaises(s: string, at: nat)
    requires 0 < at < |s|
    requires IsDigit(s[0])
    requires forall m | 1 <= m < at :: IsDigit(s[m]) || s[m] == '.'
    requires IsAlpha(s[at]) || s[at] == '_'
    ensures Tokenize(s) == LexErr(s[..WordEnd(s, at)])
    ensures !IsValidIdentifier(s[..WordEnd(s, at)])
  {
    var r := ScanNumber(s, 1, false);
    assert r.Glued?;
    assert r.at == at;
  }

  /** The converse of `ScanLexeme`'s error clauses: a line that starts with
      a glued run stopping before a non-word character (or at the end) is
      rejected on exactly that run. */
  lemma GluedPrefixRejected(s: string, e: nat)
    requires e <= |s| && IsGluedRun(s[..e]) && (e == |s| || !IsWordChar(s[e]))
    ensures ScanLexeme(s) == Malformed(e)
  {
    var g := s[..e];
    var a :| 0 < a < |g| && GluedAt(g, a);
    assert IsDigit(s[0]) by { assert g[0] == s[0]; }
    assert DigitsAndDots(s, 1, a) by {
      forall m | 1 <= m < a ensures IsDigit(s[m]) || s[m] == '.' {
        assert g[m] == s[m];
      }
    }
    assert IsAlpha(s[a]) || s[a] == '_' by { assert g[a] == s[a]; }
    assert WordEnd(s, a) == e by {
      forall m | a <= m < e ensures IsWordChar(s[m]) {
        assert g[m] == s[m];
      }
    }
    var r := ScanNumber(s, 1, false);
    assert r.Glued? && r.at == a;
  }

  /** The end of a rejected lexeme is determined by the text: at most one
      prefix of a line is a glued run that stops before a non-word character
      or at the end. So `ScanLexeme`'s contract fixes the lexeme the scan
      raises on. */
  lemma GluedRunEndUnique(s: string, e1: nat, e2: nat)
    requires e1 <= |s| && IsGluedRun(s[..e1]) && (e1 == |s| || !IsWordChar(s[e1]))
    requires e2 <= |s| && IsGluedRun(s[..e2]) && (e2 == |s| || !IsWordChar(s[e2]))
    ensures e1 == e2
  {
    GluedPrefixRejected(s, e1);
    GluedPrefixRejected(s, e2);
  }

  /** A character that is neither whitespace, a letter nor a digit is a
      one-character symbol token on its own, whatever follows it; the scan
      goes on right after it. */
  lemma SymbolPassesThrough(c: char, s: string)
    requires !IsSpace(c) && !IsAlpha(c) && !IsDigit(c)
    ensures Tokenize([c] + s) == Emit(Token(Symbol, [c]), Tokenize(s))
  {
    var line := [c] + s;
    assert ScanLexeme(line) == Scanned(Symbol, 1);
    assert line[..1] == [c];
    assert line[1..] == s;
  }

  /** A glued run right after a symbol still aborts the line with that run
      as the rejected lexeme: the error is not confined to the start. */
  lemma SymbolThenGluedRun(c: char, s: string, at: nat)
    requires !IsSpace(c) && !IsAlpha(c) && !IsDigit(c)
    requires 0 < at < |s|
    requires IsDigit(s[0])
    requires forall m | 1 <= m < at :: IsDigit(s[m]) || s[m] == '.'
    requires IsAlpha(s[at]) || s[at] == '_'
    ensures Tokenize([c] + s) == LexErr(s[..WordEnd(s, at)])
  {
    SymbolPassesThrough(c, s);
    GluedRunRaises(s, at);
  }

  /** A glued run anywhere in a line aborts it with that run as the rejected
      lexeme, as long as the text before it scans without error and the run
      follows whitespace or a symbol that ends lexemes. */
  lemma GluedRunAfter(a: string, c: char, g: string, at: nat)
    requires Tokenize(a).Lexed?
    requires IsSpace(c) || EndsLexeme(c)
    requires 0 < at < |g|
    requires IsDigit(g[0])
    requires forall m | 1 <= m < at :: IsDigit(g[m]) || g[m] == '.'
    requires IsAlpha(g[at]) || g[at] == '_'
    ensures Tokenize(a + [c] + g) == LexErr(g[..WordEnd(g, at)])
  {
    GluedRunRaises(g, at);
    if IsSpace(c) {
      SpaceSplits(a, c, g);
    } else {
      SymbolSplits(a, c, g);
    }
  }

  /** The lexemes of a token list separated by single spaces. */
  function Unlex(ts: seq<Token>): string {
    if |ts| == 0 then []
    else if |ts| == 1 then ts[0].lexeme
    else ts[0].lexeme + [' '] + Unlex(ts[1..])
  }

  /** The inverse of the round trip: writing well-formed tokens out with a
      space between neighbours and scanning the text gives back exactly
      those tokens. */
  lemma {:induction false} UnlexRoundTrip(ts: seq<Token>)
    requires forall k | 0 <= k < |ts| :: WellFormed(ts[k])
    ensures Tokenize(Unlex(ts)) == Lexed(ts)
    decreases |ts|
  {
    if |ts| == 0 {
    } else if |ts| == 1 {
      Retokenize(ts[0]);
    } else {
      Retokenize(ts[0]);
      UnlexRoundTrip(ts[1..]);
      SpaceSplits(ts[0].lexeme, ' ', Unlex(ts[1..]));
      assert [ts[0]] + ts[1..] == ts;
    }
  }
}

=== FILE: parser.dfy ===
/** The recursive-descent recogniser: one function per non-terminal, each
    taking the token list and a cursor and returning the cursor after what it
    consumed, or the syntax error it raises. */
module Parser {
  import opened Tokens

  /** Why a line is rejected; one tag per `SyntaxError` the parser raises. */
  datatype Reason =
    | UnexpectedEnd          // consume at end of input
    | KindMismatch           // consume with an expected kind
    | LexemeMismatch         // consume with an expected lexeme
    | ExpectedOperand        // parse_x on a symbol or at end of input
    | KeywordInCondition     // parse_x on `if` or `else`
    | IfNotKeyword           // `if` that is not a keyword token
    | ElseNotKeyword         // `else` that is not a keyword token
    | MissingStatement       // a statement expected at end of input
    | InvalidStatementStart  // a statement that starts with `else` or a symbol
    | TrailingToken          // a token after the terminating `;`

  /** The cursor after a successful parsing step, or the error raised. */
  datatype ParseResult = Ok(pos: nat) | SynErr(reason: Reason)

  /** The verdict on a whole line. */
  datatype Verdict = Accepted | Rejected(reason: Reason)

  /** `self.operators`. */
  const Operators: set<string> := {"+", "-", "*", "/", "^", "<", ">", "="}

  /** `self.statement_starters`; `parse_x` tests the same four kinds. */
  const StatementStarters: set<Kind> := {Identifier, Keyword, Integer, Float}

  lemma StartersAreNonSymbols()
    ensures forall k: Kind :: k in StatementStarters <==> k != Symbol
  {
  }

  /** `current_token`: the token under the cursor, if any. */
  function CurrentToken(toks: seq<Token>, pos: nat): (r: Option<Token>)
    ensures r.Some? <==> pos < |toks|
    ensures r.Some? ==> r.value == toks[pos]
  {
    if pos < |toks| then Some(toks[pos]) else None
  }

  /** `consume`: advances past the current token when there is one and it has
      the expected kind and lexeme (each checked only when given). */
  function Consume(toks: seq<Token>, pos: nat, kind: Option<Kind>, lexeme: Option<string>): (r: ParseResult)
    requires pos <= |toks|
    ensures r.Ok? <==> pos < |toks|
                       && (kind.Some? ==> toks[pos].kind == kind.value)
                       && (lexeme.Some? ==> toks[pos].lexeme == lexeme.value)
    ensures r.Ok? ==> r.pos == pos + 1
    ensures pos == |toks| ==> r == SynErr(UnexpectedEnd)
  {
    match CurrentToken(toks, pos)
    case None => SynErr(UnexpectedEnd)
    case Some(t) =>
      if kind.Some? && t.kind != kind.value then SynErr(KindMismatch)
      else if lexeme.Some? && t.lexeme != lexeme.value then SynErr(LexemeMismatch)
      else Ok(pos + 1)
  }

  /** Consumes the current token when it is the identifier `word`; the
      optional `then` and `endif` are matched on kind and lexeme jointly. */
  function SkipOptional(toks: seq<Token>, pos: nat, word: string): (p: nat)
    requires pos <= |toks|
    ensures p == pos || (p == pos + 1 && pos < |toks| && toks[pos] == Token(Identifier, word))
    ensures pos < |toks| && toks[pos] == Token(Identifier, word) ==> p == pos + 1
  {
    if pos < |toks| && toks[pos].kind == Identifier && toks[pos].lexeme == word then pos + 1 else pos
  }

  /** `parse_x`: one operand. It succeeds exactly on a token that is not a
      symbol and is neither `if` nor `else`, consuming that one token; at end
      of input or on a symbol it fails. */
  function ParseX(toks: seq<Token>, pos: nat): (r: ParseResult)
    requires pos <= |toks|
    ensures r.Ok? <==> pos < |toks| && toks[pos].kind != Symbol
                       && toks[pos].lexeme != "if" && toks[pos].lexeme != "else"
    ensures r.Ok? ==> r.pos == pos + 1
    ensures pos == |toks| ==> r == SynErr(ExpectedOperand)
  {
    StartersAreNonSymbols();
    var t := CurrentToken(toks, pos);
    if t.Some? && t.value.kind in StatementStarters then
      if t.value.lexeme in ["if", "else"] then SynErr(KeywordInCondition)
      else Consume(toks, pos, None, None)
    else SynErr(ExpectedOperand)
  }

  /** The `(op1 x)*` loop of `parse_cond`, resumed at `pos`: while the
      current token is an operator symbol, consume it and one operand. It
      stops, successfully, at the first token that is not an operator. */
  function CondTail(toks: seq<Token>, pos: nat): (r: ParseResult)
    requires pos <= |toks|
    ensures r.Ok? ==> pos <= r.pos <= |toks|
    ensures r.Ok? ==> r.pos == |toks| || !(toks[r.pos].kind == Symbol && toks[r.pos].lexeme in Operators)
    decreases |toks| - pos
  {
    if pos < |toks| && toks[pos].kind == Symbol && toks[pos].lexeme in Operators then
      match Consume(toks, pos, None, None)
      case SynErr(e) => SynErr(e)
      case Ok(p) =>
        match ParseX(toks, p)
        case SynErr(e) => SynErr(e)
        case Ok(q) => CondTail(toks, q)
    else Ok(pos)
  }

  /** `parse_cond`: an operand followed by the operator loop. */
  function ParseCond(toks: seq<Token>, pos: nat): (r: ParseResult)
    requires pos <= |toks|
    ensures r.Ok? ==> pos < r.pos <= |toks|
  {
    match ParseX(toks, pos)
    case SynErr(e) => SynErr(e)
    case Ok(p) => CondTail(toks, p)
  }

  /** `parse_A`: condition, optional `then`, statement, and optionally `else`
      (which must be a keyword token), statement and optional `endif`. */
  function ParseA(toks: seq<Token>, pos: nat): (r: ParseResult)
    requires pos <= |toks|
    ensures r.Ok? ==> pos < r.pos <= |toks|
    decreases |toks| - pos
  {
    match ParseCond(toks, pos)
    case SynErr(e) => SynErr(e)
    case Ok(c) =>
      match ParseStatement(toks, SkipOptional(toks, c, "then"))
      case SynErr(e) => SynErr(e)
      case Ok(q) =>
        if q < |toks| && toks[q].lexeme == "else" then
          if toks[q].kind != Keyword then SynErr(ElseNotKeyword)
          else
            match Consume(toks, q, None, Some("else"))
            case SynErr(e) => SynErr(e)
            case Ok(e) =>
              match ParseStatement(toks, e)
              case SynErr(err) => SynErr(err)
              case Ok(f) => Ok(SkipOptional(toks, f, "endif"))
        else Ok(q)
  }

  /** `parse_statement`: `if` (a keyword token) followed by the rest of the
      if-construct, or one bare token of a starter kind other than `else`.
      Every successful statement consumes at least one token; at end of input
      it fails, and so it does on a symbol or `else`. */
  function ParseStatement(toks: seq<Token>, pos: nat): (r: ParseResult)
    requires pos <= |toks|
    ensures r.Ok? ==> pos < r.pos <= |toks|
    ensures pos == |toks| ==> r == SynErr(MissingStatement)
    ensures pos < |toks| && toks[pos].lexeme != "if"
            && (toks[pos].kind == Symbol || toks[pos].lexeme == "else")
            ==> r == SynErr(InvalidStatementStart)
    ensures pos < |toks| && toks[pos].lexeme == "if" && toks[pos].kind != Keyword
            ==> r == SynErr(IfNotKeyword)
    decreases |toks| - pos
  {
    match CurrentToken(toks, pos)
    case None => SynErr(MissingStatement)
    case Some(t) =>
      if t.lexeme == "if" then
        if t.kind != Keyword then SynErr(IfNotKeyword)
        else
          match Consume(toks, pos, None, Some("if"))
          case SynErr(e) => SynErr(e)
          case Ok(p) => ParseA(toks, p)
      else if t.lexeme != "else" && t.kind in StatementStarters then
        Consume(toks, pos, None, None)
      else SynErr(InvalidStatementStart)
  }

  /** The statement loop of `parse`, resumed at `pos`: stop at end of input,
      or consume a `;` and stop, or parse one more statement. When it
      succeeds it stops either at the end or right after a `;`. */
  function ParseStatements(toks: seq<Token>, pos: nat): (r: ParseResult)
    requires pos <= |toks|
    ensures r.Ok? ==> pos <= r.pos <= |toks|
    ensures r.Ok? ==> r.pos == |toks| || (pos < r.pos && toks[r.pos - 1].lexeme == ";")
    decreases |toks| - pos
  {
    match CurrentToken(toks, pos)
    case None => Ok(pos)
    case Some(t) =>
      if t.lexeme == ";" then Consume(toks, pos, None, None)
      else
        match ParseStatement(toks, pos)
        case SynErr(e) => SynErr(e)
        case Ok(p) => ParseStatements(toks, p)
  }

  /** `parse` as called by `checkGrammar`: an empty token list is accepted;
      otherwise the statement loop must succeed and leave no token behind.
      A line is accepted exactly when it is empty or the statements consume
      it entirely (possibly ending with `;`); a token after the consumed `;`
      is rejected as trailing. */
  function CheckGrammar(toks: seq<Token>): (v: Verdict)
    ensures v.Accepted? <==> |toks| == 0 || ParseStatements(toks, 0) == Ok(|toks|)
    ensures |toks| > 0 && ParseStatements(toks, 0).Ok? && ParseStatements(toks, 0).pos < |toks|
            ==> v == Rejected(TrailingToken)
  {
    if |toks| == 0 then Accepted
    else
      match ParseStatements(toks, 0)
      case SynErr(e) => Rejected(e)
      case Ok(p) => if p < |toks| then Rejected(TrailingToken) else Accepted
  }
}

=== FILE: parser_props.dfy ===
/** The parser against the declarative grammar: the condition parser accepts
    exactly the maximal conditions, every accepted line is in the language,
    and the greedy optional `then` makes the converse fail. */
module ParserProps {
  import opened Tokens
  import opened Parser
  import opened Grammar

  /** A condition followed by an operator and an operand is a longer
      condition. */
  lemma CondExtend(toks: seq<Token>, i: nat, p: nat)
    requires i < p && p + 1 < |toks|
    requires IsCond(toks, i, p) && IsOperator(toks[p]) && IsAtom(toks[p + 1])
    ensures IsCond(toks, i, p + 2)
  {
    forall k | i <= k < p + 2
      ensures if (k - i) % 2 == 0 then IsAtom(toks[k]) else IsOperator(toks[k])
    {
      if k == p + 1 { assert (k - i) % 2 == 0; }
      else if k == p { assert (k - i) % 2 == 1; }
    }
  }

  /** Inside a condition, a prefix condition is followed by an operator and
      an operand, and the prefix extended by them is again a condition. */
  lemma CondInside(toks: seq<Token>, i: nat, p: nat, q: nat)
    requires i < p < q <= |toks|
    requires IsCond(toks, i, p) && IsCond(toks, i, q)
    ensures p + 1 < q && IsOperator(toks[p]) && IsAtom(toks[p + 1])
  {
    assert (q - i) % 2 == 1 && (p - i) % 2 == 1;
    assert (p + 1 - i) % 2 == 0;
  }

  /** The operator loop extends a condition ending at `p` to one ending where
      the loop stops. */
  lemma {:induction false} CondTailSound(toks: seq<Token>, i: nat, p: nat)
    requires i < p <= |toks|
    requires IsCond(toks, i, p)
    ensures CondTail(toks, p).Ok? ==> IsCond(toks, i, CondTail(toks, p).pos)
    decreases |toks| - p
  {
    if CondTail(toks, p).Ok? && p < |toks| && IsOperator(toks[p]) {
      assert ParseX(toks, p + 1).Ok?;
      CondExtend(toks, i, p);
      CondTailSound(toks, i, p + 2);
    }
  }

  /** A maximal condition from `i` to `q` is one the operator loop, started
      after any of its operands, runs to the end of. */
  lemma {:induction false} CondTailComplete(toks: seq<Token>, i: nat, p: nat, q: nat)
    requires i < p <= q <= |toks|
    requires IsCond(toks, i, p) && IsCond(toks, i, q)
    requires q == |toks| || !IsOperator(toks[q])
    ensures CondTail(toks, p) == Ok(q)
    decreases q - p
  {
    if p < q {
      CondInside(toks, i, p, q);
      assert ParseX(toks, p + 1) == Ok(p + 2);
      CondExtend(toks, i, p);
      CondTailComplete(toks, i, p + 2, q);
    }
  }

  /** `parse_cond` succeeds ending at `q` exactly when `toks[i..q]` is a
      condition that no operator follows. */
  lemma CondExact(toks: seq<Token>, i: nat, q: nat)
    requires i <= q <= |toks|
    ensures ParseCond(toks, i) == Ok(q) <==> IsCond(toks, i, q) && (q == |toks| || !IsOperator(toks[q]))
  {
    if ParseCond(toks, i) == Ok(q) {
      assert IsCond(toks, i, i + 1);
      CondTailSound(toks, i, i + 1);
    }
    if IsCond(toks, i, q) && (q == |toks| || !IsOperator(toks[q])) {
      assert IsAtom(toks[i]);
      assert IsCond(toks, i, i + 1);
      CondTailComplete(toks, i, i + 1, q);
    }
  }

  /** Every statement `parse_statement` accepts is a statement of the
      grammar. */
  lemma {:induction false} StatementSound(toks: seq<Token>, i: nat)
    requires i <= |toks|
    ensures ParseStatement(toks, i).Ok? ==> IsStatement(toks, i, ParseStatement(toks, i).pos)
    decreases |toks| - i, 1
  {
    var r := ParseStatement(toks, i);
    if r.Ok? {
      if toks[i].lexeme == "if" {
        assert toks[i] == Token(Keyword, "if");
        IfRestSound(toks, i + 1);
      } else {
        assert r.pos == i + 1 && IsAtom(toks[i]);
      }
    }
  }

  /** Every if-construct `parse_A` accepts is an `A` of the grammar. */
  lemma {:induction false} IfRestSound(toks: seq<Token>, i: nat)
    requires i <= |toks|
    ensures ParseA(toks, i).Ok? ==> IsIfRest(toks, i, ParseA(toks, i).pos)
    decreases |toks| - i, 0
  {
    var r := ParseA(toks, i);
    if r.Ok? {
      var c := ParseCond(toks, i).pos;
      CondExact(toks, i, c);
      var t := SkipOptional(toks, c, "then");
      StatementSound(toks, t);
      var e := ParseStatement(toks, t).pos;
      if e < |toks| && toks[e].lexeme == "else" {
        var f := ParseStatement(toks, e + 1).pos;
        StatementSound(toks, e + 1);
        assert toks[e] == Token(Keyword, "else");
        assert r.pos == SkipOptional(toks, f, "endif");
        assert e + 1 < f <= r.pos && IsStatement(toks, e + 1, f);
        assert f == r.pos || (f + 1 == r.pos && toks[f] == Token(Identifier, "endif"));
        assert IsElsePart(toks, e, r.pos);
      } else {
        assert IsElsePart(toks, e, r.pos);
      }
      assert IsCond(toks, i, c);
    }
  }

  /** The statement loop, when it succeeds, has consumed a run of grammar
      statements, possibly followed by the `;` it stopped at. */
  lemma {:induction false} StatementsSound(toks: seq<Token>, i: nat)
    requires i <= |toks|
    ensures var r := ParseStatements(toks, i);
            r.Ok? ==> IsStatements(toks, i, r.pos)
                      || (i < r.pos && toks[r.pos - 1].lexeme == ";" && IsStatements(toks, i, r.pos - 1))
    decreases |toks| - i
  {
    var r := ParseStatements(toks, i);
    if r.Ok? && i < |toks| && toks[i].lexeme != ";" {
      var p := ParseStatement(toks, i).pos;
      StatementSound(toks, i);
      StatementsSound(toks, p);
      if IsStatements(toks, p, r.pos) {
        assert IsStatements(toks, i, r.pos);
      } else {
        assert IsStatements(toks, i, r.pos - 1);
      }
    }
  }

  /** Soundness: every line `checkGrammar` accepts is in the language `S`. */
  lemma LineSound(toks: seq<Token>)
    ensures CheckGrammar(toks).Accepted? ==> IsLine(toks)
  {
    if CheckGrammar(toks).Accepted? && |toks| > 0 {
      StatementsSound(toks, 0);
    }
  }

  /** A partial converse: a run of bare operands, none of them `;`, is
      consumed to the end by the statement loop. */
  lemma {:induction false} AtomsParse(toks: seq<Token>, i: nat)
    requires i <= |toks|
    requires forall k | i <= k < |toks| :: IsAtom(toks[k]) && toks[k].lexeme != ";"
    ensures ParseStatements(toks, i) == Ok(|toks|)
    decreases |toks| - i
  {
    if i < |toks| {
      assert ParseStatement(toks, i) == Ok(i + 1);
      AtomsParse(toks, i + 1);
    }
  }

  /** A line of bare operands, optionally ended by `;`, is accepted. */
  lemma AtomLineAccepted(toks: seq<Token>, terminated: bool)
    requires forall k | 0 <= k < |toks| :: IsAtom(toks[k]) && toks[k].lexeme != ";"
    ensures CheckGrammar(if terminated then toks + [Token(Symbol, ";")] else toks) == Accepted
  {
    if terminated {
      var line := toks + [Token(Symbol, ";")];
      forall k | 0 <= k < |toks| ensures line[k] == toks[k] {}
      AtomsThenTerminator(line, 0);
    } else {
      AtomsParse(toks, 0);
    }
  }

  /** Bare operands followed by one `;` are consumed up to and including it. */
  lemma {:induction false} AtomsThenTerminator(line: seq<Token>, i: nat)
    requires 0 < |line| && i < |line| && line[|line| - 1].lexeme == ";"
    requires forall k | i <= k < |line| - 1 :: IsAtom(line[k]) && line[k].lexeme != ";"
    ensures ParseStatements(line, i) == Ok(|line|)
    decreases |line| - i
  {
    if i < |line| - 1 {
      assert ParseStatement(line, i) == Ok(i + 1);
      AtomsThenTerminator(line, i + 1);
    }
  }

  /** The converse fails because the optional `then` is taken greedily: in
      `if x then` the grammar may read `then` as the body, but the parser
      consumes it as the optional word and then finds no statement. */
  lemma GreedyThen()
    ensures var toks := [Token(Keyword, "if"), Token(Identifier, "x"), Token(Identifier, "then")];
            IsLine(toks) && CheckGrammar(toks) == Rejected(MissingStatement)
  {
    var toks := [Token(Keyword, "if"), Token(Identifier, "x"), Token(Identifier, "then")];
    assert IsCond(toks, 1, 2);
    assert IsStatement(toks, 2, 3);
    assert IsElsePart(toks, 3, 3);
    assert IsIfRest(toks, 1, 3);
    assert IsStatement(toks, 0, 3);
    assert IsStatements(toks, 3, 3);
    assert IsStatements(toks, 0, 3);
    assert ParseCond(toks, 1) == Ok(2);
    assert ParseStatement(toks, 3) == SynErr(MissingStatement);
  }
}

=== FILE: tokens.dfy ===
/** Tokens: the five token kinds, the keyword table, and the reference
    classification of a lexeme by its shape alone. */
module Tokens {
  import opened Chars

  datatype Option<T> = None | Some(value: T)

  /** `TokenType`. */
  datatype Kind = Identifier | Keyword | Integer | Float | Symbol

  /** A token is a (kind, lexeme) pair. */
  datatype Token = Token(kind: Kind, lexeme: string)

  /** `token_hierarchy`: the reserved words and the kind they map to. */
  const Keywords: map<string, Kind> := map["if" := Keyword, "else" := Keyword, "print" := Keyword]

  /** Some `.` in `s[lo..hi]` is immediately followed by a digit that is also
      in `s[lo..hi]`. */
  predicate FractionIn(s: string, lo: nat, hi: nat)
    requires hi <= |s|
  {
    exists m :: lo <= m && m + 1 < hi && s[m] == '.' && IsDigit(s[m + 1])
  }

  /** The kind a lexeme of this shape must have, independently of how it was
      scanned; None for a text that is not the shape of any token.
      - a letter followed by letters, digits and underscores is a word: a
        keyword when the table lists it, otherwise an identifier;
      - a digit followed by digits and dots is a number: a float when some dot
        is followed by a digit, otherwise an integer;
      - any other single non-space character is a symbol. */
  function KindOfLexeme(lexeme: string): Option<Kind> {
    if |lexeme| == 0 then None
    else if IsAlpha(lexeme[0]) then
      if forall k | 1 <= k < |lexeme| :: IsWordChar(lexeme[k])
      then Some(if lexeme in Keywords then Keyword else Identifier)
      else None
    else if IsDigit(lexeme[0]) then
      if forall k | 1 <= k < |lexeme| :: IsDigit(lexeme[k]) || lexeme[k] == '.'
      then Some(if FractionIn(lexeme, 0, |lexeme|) then Float else Integer)
      else None
    else if |lexeme| == 1 && !IsSpace(lexeme[0]) then Some(Symbol)
    else None
  }

  /** A token whose kind is the one its lexeme's shape determines. */
  predicate WellFormed(t: Token) {
    KindOfLexeme(t.lexeme) == Some(t.kind)
  }
}
